=== FILE: README.md ===
# Subject navigator of the image-captioning page

This project models the navigator of the captioning page's `App` class in
`src/ui.ts`. The page holds a list of subjects (id, image path, caption) fetched
from the server. A cursor is either -1, meaning no current subject, or an index
into that list. There are also the caption editor's text, the image element, the
subject dropdown and the category container. The previous and next buttons and
the dropdown move the cursor. Before every move the page copies the editor text
into the current subject's caption and sends that subject to the server with the
"update" action. Navigation reports a `Completion`: `Error` at either end of the
list, `NotDone` after a move, and `Done` once there is nothing left to show.

The model is pure:

- A page state is a `Navigator.State` value.
- Every navigator method that can throw is a function from a state to a `Step`.
  A step either returns a value or throws an error. The others are plain
  functions: saving and showing the notice return a new state, and the two
  lookups return an `Option` or a `Result`.
- A throwing step carries the state as it was when the exception left the method.
  Nothing is rolled back, so "throws before anything changed" is the precise
  statement `r == Threw(s, e)`.
- Requests sent to the server are recorded in the `persisted` log, in the order
  they were sent.
- The promise queue that runs the button handlers is modelled by what it
  guarantees (`Queue.RunAll`, used by `Session.Run`):
  - tasks run one after another;
  - each caller gets its own task's outcome;
  - a task that throws does not stop the tasks after it.

Modules:

- `Subjects`: the subject record, the `findIndex` lookup on ids, and the shape
  invariants. After `init`, the list's length, ids and image paths never change;
  only captions do.
- `Navigator`: the `Completion` enum, the state, and one function per navigator
  method.
- `Properties`: properties that relate a transition to the unique-id invariant
  or to a second call.
- `Queue`: the promise queue's ordering guarantee over an abstract step.
- `Session`: the navigator's entry points run one after another, and the
  invariants every run keeps. Only the buttons go through the queue; a
  dropdown selection is taken as one whole step between queued tasks.
- `Scenarios`: concrete sessions on small lists.

The code never checks that ids are unique, and neither does the model. The id
lookup takes the first match (`findIndex`), and so does `GetSubjectIndex`.
Properties that need unique ids say so in their preconditions.
`Properties.NextStallsOnRepeatedId` shows what the next button does when ids
repeat.

## Model

| member | source | states |
|---|---|---|
| `Subjects.FindIndex` | src/ui.ts:125 | the id lookup yields -1 exactly when no subject has the id, and otherwise the first index whose subject has it |
| `Subjects.UniqueFindIndex` | src/ui.ts:124-130 | with unique ids, looking up subject i's own id finds i |
| `Subjects.SameShapeFindIndex` | src/ui.ts:124-130 | saving captions never changes what an id lookup finds, because ids and positions stay fixed |
| `Subjects.SameShapeUnique` | src/ui.ts:197-204 | caption-only changes keep unique ids unique, and cannot make repeated ids unique either |
| `Navigator.Initial` | src/ui.ts:47-48 | a freshly constructed page has no subjects, no current subject and nothing pending to save, and nothing sent; the view fields start as the page's HTML is assumed to leave them (see Left out): nothing selected in the dropdown, the image shown, no completion notice |
| `Navigator.DisplayCompletion` | src/ui.ts:206-210 | the completion notice is shown and nothing else about the page changes |
| `Navigator.CurrentSubject` | src/ui.ts:117-122 | there is a current subject exactly when the cursor indexes the list, and it is the subject at the cursor |
| `Navigator.PostUpdate` | src/ui.ts:197-204 | with no current subject nothing changes and nothing is sent; otherwise only the current subject's caption changes, to the editor text, that subject is sent once, and every other subject and view field is unchanged |
| `Navigator.GetSubjectIndex` | src/ui.ts:124-130 | succeeds exactly when some subject has the id, with the first such index; otherwise throws "invalid subject id" for that id |
| `Navigator.UseSubjectInfo` | src/ui.ts:100-115 | always saves the current subject first; with no id it clears the cursor and hides the image, leaving the editor and image source as they were; with an id it throws when no subject has it, having saved and changed nothing else, or else moves to the first subject with that id and shows its image and caption; the dropdown and completion notice are untouched |
| `Navigator.GoToByIndex` | src/ui.ts:138-154 | no index: save, clear the cursor, hide the image, show the completion notice, report `Done`, nothing else changed; an index outside the list throws with the state untouched; a valid index saves, selects that dropdown entry, shows the first subject with the same id and reports `NotDone` |
| `Navigator.GoToById` | src/ui.ts:156-162 | no id is the same as finishing; an unknown id throws with the state untouched; a known id is exactly going to its first index: it lands on the first subject with that id, with the dropdown selecting it, shows that subject's image and caption, has sent only the pending save, and leaves the image and completion flags as they were |
| `Navigator.AdvancePrev` | src/ui.ts:169-181 | throws with the state untouched when there is no current subject; otherwise it always returns having sent the current subject with the editor text; at the first subject it reports `Error`, stays put and changes nothing else; later it is exactly going to the previous index: it reports `NotDone`, selects that dropdown entry, lands at or before it on a subject with the same id, shows that subject's image and caption, and leaves the image and completion flags as they were |
| `Navigator.AdvanceNext` | src/ui.ts:183-195 | throws with the state untouched when there is no current subject; otherwise it always returns having sent the current subject with the editor text; at the last subject it reports `Error`, stays put and changes nothing else; earlier it is exactly going to the next index: it reports `NotDone`, selects that dropdown entry, lands at or before it on a subject with the same id, shows that subject's image and caption, and leaves the image and completion flags as they were |
| `Navigator.Init` | src/ui.ts:80-98 | an empty id list only shows the completion notice; otherwise the fetched subjects are appended in id order after the existing ones, the first subject of the list becomes current with its image and its caption in the editor, the image and completion flags are kept, and, when the cursor invariant held, only the pending save of the old current subject is sent |
| `Properties.InitFresh` | src/ui.ts:80-98 | on a freshly built page: no ids means no subjects, no cursor and the completion notice; otherwise exactly the fetched subjects, cursor 0 with its caption, dropdown on entry 0, nothing sent, and the cursor invariant holds |
| `Properties.GoToIndexUnique` | src/ui.ts:138-154 | with unique ids, a valid index lands exactly on that index, with the dropdown on it and the editor showing its caption, and at most the previous subject was sent |
| `Properties.GoToIdUnique` | src/ui.ts:156-162 | with unique ids, going to subject i's id is going to index i |
| `Properties.CompletionIdempotent` | src/ui.ts:138-145 | finishing from any state ends with no cursor and the completion notice shown, and finishing again returns `Done` with nothing changed or sent |
| `Properties.AdvancePrevMoves` | src/ui.ts:169-181 | with unique ids and a current subject after the first, previous reports `NotDone`, moves back exactly one and sends the current subject with the editor text |
| `Properties.AdvanceNextMoves` | src/ui.ts:183-195 | with unique ids and a current subject before the last, next reports `NotDone`, moves forward exactly one and sends the current subject with the editor text |
| `Properties.AdvanceAtEdgeStays` | src/ui.ts:169-195 | previous at the first subject and next at the last report `Error`, keep the cursor and send the current subject exactly once |
| `Properties.NextStallsOnRepeatedId` | src/ui.ts:183-195 | when the next subject repeats the current subject's id, next reports `NotDone` and selects the next dropdown entry, but the cursor does not move forward |
| `Queue.RunAll` | src/promise-queue.ts:5-9 | every queued task runs and settles, one outcome per task |
| `Queue.OwnOutcome` | src/promise-queue.ts:5-9 | the k-th caller receives its own task's outcome, computed on the state the first k tasks left, whether those tasks succeeded or failed |
| `Queue.RunAppend` | src/promise-queue.ts:5-9 | running one batch of tasks and then another is the same as running them as one batch |
| `Session.Apply` | src/ui.ts:71-77 | whichever entry point runs (a queued button press, a dropdown selection, or a go-to by index): the list's length, ids and image paths are kept; the cursor stays in [-1, N-1]; a throw changes nothing; a return has sent exactly the pending save, and, if the cursor moved, that save is the old current subject with the editor text; the image never reappears and the completion notice never goes away |
| `Session.Run` | src/ui.ts:71-76 | the button presses run through the queue one after another, every one of them settling with its own outcome |
| `Session.FailureIsolated` | src/promise-queue.ts:6-7 | a task that throws fails only its own caller, and the tasks after it run exactly as if it had not been queued |
| `Session.RunKeeps` | src/ui.ts:138-204 | over any sequence of entry points: only captions change, so unique ids stay unique; the cursor stays in [-1, N-1]; the persist log only grows; hidden-image and completion flags stay set |
| `Session.RunOutcomeIsOwn` | src/promise-queue.ts:5-9 | each button press observes the outcome of its own handler, run on the state the earlier presses left |
| `Session.RunSplit` | src/promise-queue.ts:5-9 | a session can be split at any point into two consecutive sessions |
| `Scenarios.NextAtLast` | src/ui.ts:187-192 | next on the last subject reports `Error`, stays put and sends the current subject once |
| `Scenarios.NextToEnd` | src/ui.ts:183-195 | with unique ids, pressing next n+1 times from n places before the end gives n `NotDone` outcomes, then `Error`, and ends on the last subject |
| `Scenarios.NextToEndSends` | src/ui.ts:197-204 | those presses send the starting subject with the editor text, then every later subject in list order |
| `Scenarios.LoadedIsInit` | src/ui.ts:80-98 | the page the scenarios start from is exactly what `init` leaves on a freshly built page with an empty editor |
| `Scenarios.LoadedDistinct` | src/ui.ts:87-96 | loading distinct ids gives one blank subject per id in order, unique ids, cursor 0 and nothing sent |
| `Scenarios.PrevAtFirst` | src/ui.ts:169-179 | on two subjects, previous at the first reports `Error`, stays on it and sends it once |
| `Scenarios.NextToLast` | src/ui.ts:183-195 | on two subjects, next then next gives `NotDone` then `Error` and ends on the second |
| `Scenarios.TraverseThree` | src/ui.ts:183-195 | on three subjects, three presses of next give `NotDone`, `NotDone`, `Error` and end on the third |
| `Scenarios.TraverseThreeSends` | src/ui.ts:197-204 | those three presses send the three subjects in list order |
| `Scenarios.EmptyInit` | src/ui.ts:81-85 | an empty id list shows the completion notice with no subjects and no cursor, and next then throws "no current subject" |
| `Scenarios.EmptyPageQueue` | src/promise-queue.ts:5-9 | on the empty page, next and an out-of-range index each fail their own caller, and finishing still runs and reports `Done` |

## Left out

- The constructor's DOM lookups and their "not found" errors are left out. The model starts from a constructed page.
- `_displayCompletionMessage` looks up the category container on every call and throws when it is missing. That DOM failure is left out; the model assumes the container exists.
- `flashRedScreen` is left out. It is a visual effect with timers and does not change the navigator's state.
- The `console.log` calls are left out.
- `registerMagnify` (src/magnify.ts) is left out. It is image zoom handling and does not touch the navigator.
- The transport in src/api.ts is left out. The "getSubjectIDs" and "getSubjectInfo" requests become the `ids` and `fetch` parameters of `Init`. An "update" request is recorded in `persisted` and assumed to succeed. A rejected request, which would make the calling method throw partway, is not modelled.
- `_onDropdownSelection` and `_decodeSelectedSubject` are left out. They read the selected option's value out of the DOM and hand it to `_goToSubjectByID`, which is modelled as `GoToById`.
- The promise queue's implementation with `then`/`catch` is left out. Only its ordering guarantee is modelled, as `Queue.RunAll`.
- Interleaving between `init` and button presses is left out. `init` is not queued, so a press during loading could run on a partly loaded list.
- The dropdown's `change` handler is not queued in the code (src/ui.ts:77); it calls `_goToSubjectByID` directly. Its awaits could interleave with a queued button press. `Session.Run` assumes each dropdown selection runs whole between two queued tasks, and this interleaving is not modelled.
- No page event calls `_goToSubjectByIndex` directly. The `ByIndex` step stands for a direct call of that public method, and such a call is likewise taken as one whole step.
- The page's HTML is not part of the model. `Initial` assumes the dropdown starts with no options and nothing selected and is a single-select list, the image is visible, and the category container does not show the notice. Dropdown entry i is then subject i, which is what `GoToByIndex`, `Init` and `Properties.InitFresh` mean by the dropdown's selection.
- The dropdown's selection after `init` is not modelled as code. The code never sets it. A single-select element with no selection selects the first option added to it, so the model sets the selection to 0 when it was negative.
- Line breaks in the caption editor are not modelled. A browser textarea turns CR and CRLF into LF when its text is read back (src/ui.ts:113, 202). The model takes the editor text to be exactly the caption it was given. So a caption containing CR is sent back changed by the page even when nobody edited it, whereas `Scenarios.NextToEndSends` and `Scenarios.TraverseThreeSends` send it as loaded.
- Non-integer numbers passed to `_goToSubjectByIndex` are left out. Indices are integers in the model, and the page only ever passes integers.
- The `SubjectID` and `SubjectInfo` types (src/types.ts) are not part of this model. Ids are strings compared for equality, and a subject is an id, an image path and a caption.

=== FILE: navigator.dfy ===
/**
  The subject navigator of the captioning page: an ordered, fixed-length
  list of subjects, a cursor (-1 for "no current subject"), the caption
  editor's text and a few view flags, with the transitions the page runs.

  Every transition is a pure function from a state to a `Step`. A step that
  returns carries the new state and the returned value; a step that throws
  carries the state as it was when the exception left the method, since
  nothing is rolled back. Persisting a subject to the server is recorded by
  appending it to `persisted`.
 */
module Navigator {
  import opened Subjects

  /** What a navigation step reports back to the page. */
  datatype Completion = Error | NotDone | Done

  /** The exceptions the navigator throws on a caller's contract breach. */
  datatype NavError = InvalidIndex(index: int) | InvalidId(id: SubjectId) | NoCurrentSubject

  /** A nullable value (`T | null`). */
  datatype Option<T> = None | Some(value: T)

  /** A lookup that either yields a value or fails with the error it throws. */
  datatype Result<T> = Ok(value: T) | Err(error: NavError)

  /**
    The navigator's state: the subject list and cursor, the editor text, the
    image element's source and `display: none` flag, whether the completion
    notice replaced the category container, the dropdown's selected index,
    and the log of subjects sent to the server with the "update" action.
   */
  datatype State = State(
    subjects: seq<Subject>,
    cursor: int,
    editor: string,
    imageSrc: string,
    imageHidden: bool,
    completionShown: bool,
    dropdownIndex: int,
    persisted: seq<Subject>)

  /** The outcome of one call: it returned `value`, or it threw `error`. */
  datatype Step<T> = Returned(state: State, value: T) | Threw(state: State, error: NavError)

  /** The image server the page loads subject images from. */
  const ImageHost: string := "http://localhost:3000/"

  /**
    A freshly constructed page: no subjects, no current subject, an empty
    dropdown with nothing selected, the image shown, no completion notice and
    nothing sent yet.
   */
  function Initial(editor: string): (r: State)
    ensures Wf(r) && CurrentSubject(r).None? && PendingSave(r) == []
    ensures r.subjects == [] && r.persisted == [] && r.dropdownIndex < 0
    ensures !r.imageHidden && !r.completionShown && r.editor == editor
  {
    State([], -1, editor, "", false, false, -1, [])
  }

  /** The cursor invariant: -1, or an index into the subject list. */
  predicate Wf(s: State) {
    -1 <= s.cursor < |s.subjects|
  }

  /** A subject is current. */
  predicate Positioned(s: State) {
    0 <= s.cursor < |s.subjects|
  }

  /** The record that saving the current subject sends, if there is one. */
  function PendingSave(s: State): seq<Subject> {
    if Positioned(s) then [s.subjects[s.cursor].(caption := s.editor)] else []
  }

  /** `_currentSubject`: the subject under the cursor, if the cursor indexes the list. */
  function CurrentSubject(s: State): (r: Option<Subject>)
    ensures r.Some? <==> 0 <= s.cursor < |s.subjects|
    ensures r.Some? ==> r.value == s.subjects[s.cursor]
  {
    if s.cursor < 0 || s.cursor >= |s.subjects| then None else Some(s.subjects[s.cursor])
  }

  /**
    `_postUpdateSubject`: copy the editor text into the current subject's
    caption and send that subject to the server; nothing at all when there is
    no current subject.
   */
  function PostUpdate(s: State): (r: State)
    ensures !Positioned(s) ==> r == s
    ensures SameShape(s.subjects, r.subjects)
    ensures Positioned(s) ==> r.subjects[s.cursor].caption == s.editor
    ensures Positioned(s) ==> r.persisted == s.persisted + [r.subjects[s.cursor]]
    ensures forall j :: 0 <= j < |s.subjects| && j != s.cursor ==> r.subjects[j] == s.subjects[j]
    ensures r.persisted == s.persisted + PendingSave(s)
    ensures r == s.(subjects := r.subjects, persisted := r.persisted)
  {
    match CurrentSubject(s)
    case None => s
    case Some(current) =>
      var saved := current.(caption := s.editor);
      s.(subjects := s.subjects[s.cursor := saved], persisted := s.persisted + [saved])
  }

  /** `_getSubjectIndex`: the first index carrying `id`; throws when no subject has it. */
  function GetSubjectIndex(subjects: seq<Subject>, id: SubjectId): (r: Result<nat>)
    ensures r.Ok? <==> HasId(subjects, id)
    ensures r.Ok? ==> r.value < |subjects| && subjects[r.value].id == id
    ensures r.Ok? ==> forall j :: 0 <= j < r.value ==> subjects[j].id != id
    ensures r.Err? ==> r.error == InvalidId(id)
  {
    var index := FindIndex(subjects, id);
    if index < 0 || index >= |subjects| then Err(InvalidId(id)) else Ok(index)
  }

  /** `_displayCompletionMessage`: the category container now shows the completion notice. */
  function DisplayCompletion(s: State): (r: State)
    ensures r.completionShown
    ensures r.(completionShown := s.completionShown) == s
  {
    s.(completionShown := true)
  }

  /**
    `_useSubjectInfo`: save the current subject, then either clear the cursor
    and hide the image (no id), or move the cursor to the first subject with
    that id and load its image and caption.
   */
  function UseSubjectInfo(s: State, id: Option<SubjectId>): (r: Step<()>)
    ensures id.None? ==> r.Returned?
    ensures r.state.subjects == PostUpdate(s).subjects
    ensures id.None? ==> r.state.cursor == -1 && r.state.imageHidden
    ensures id.None? ==> r.state.editor == s.editor && r.state.imageSrc == s.imageSrc
    ensures r.Threw? ==> r.state == PostUpdate(s)
    ensures id.Some? ==> (r.Returned? <==> HasId(s.subjects, id.value))
    ensures id.Some? && r.Threw? ==> r.error == InvalidId(id.value)
    ensures r.Returned? && id.Some? ==>
      && 0 <= r.state.cursor < |s.subjects|
      && s.subjects[r.state.cursor].id == id.value
      && (forall j :: 0 <= j < r.state.cursor ==> s.subjects[j].id != id.value)
      && r.state.editor == r.state.subjects[r.state.cursor].caption
      && r.state.imageSrc == ImageHost + s.subjects[r.state.cursor].imagePath
    ensures r.state.persisted == s.persisted + PendingSave(s)
    ensures r.state.completionShown == s.completionShown
    ensures r.state.dropdownIndex == s.dropdownIndex
  {
    var s1 := PostUpdate(s);
    match id
    case None => Returned(s1.(cursor := -1, imageHidden := true), ())
    case Some(id) =>
      match GetSubjectIndex(s1.subjects, id)
      case Err(e) => Threw(s1, e)
      case Ok(index) =>
        var info := s1.subjects[index];
        Returned(s1.(cursor := index, imageSrc := ImageHost + info.imagePath, editor := info.caption), ())
  }

  /**
    `_goToSubjectByIndex`: with no index, save and finish (cursor -1, image
    hidden, completion notice, `Done`); with an index outside the list, throw
    before anything happens; otherwise save, show the first subject sharing
    the id of subject `index`, select `index` in the dropdown and report
    `NotDone`.
   */
  function GoToByIndex(s: State, index: Option<int>): (r: Step<Completion>)
    ensures index.None? ==> r.Returned? && r.value == Done
    ensures r.Returned? ==> r.state.subjects == PostUpdate(s).subjects
    ensures index.None? ==>
      r.state == s.(subjects := r.state.subjects, persisted := r.state.persisted,
                    cursor := -1, imageHidden := true, completionShown := true)
    ensures index.Some? && !(0 <= index.value < |s.subjects|) ==> r == Threw(s, InvalidIndex(index.value))
    ensures index.Some? && 0 <= index.value < |s.subjects| ==>
      && r.Returned? && r.value == NotDone
      && r.state.dropdownIndex == index.value
      && 0 <= r.state.cursor <= index.value
      && s.subjects[r.state.cursor].id == s.subjects[index.value].id
      && (forall j :: 0 <= j < r.state.cursor ==> s.subjects[j].id != s.subjects[index.value].id)
      && r.state.editor == r.state.subjects[r.state.cursor].caption
      && r.state.imageSrc == ImageHost + s.subjects[r.state.cursor].imagePath
      && r.state.imageHidden == s.imageHidden
      && r.state.completionShown == s.completionShown
    ensures r.Returned? ==> r.state.persisted == s.persisted + PendingSave(s)
  {
    match index
    case None =>
      (match UseSubjectInfo(s, None)
       case Returned(s1, _) => Returned(DisplayCompletion(s1), Done)
       case Threw(s1, e) => Threw(s1, e))
    case Some(i) =>
      if i < 0 || i >= |s.subjects| then Threw(s, InvalidIndex(i))
      else
        match UseSubjectInfo(s, Some(s.subjects[i].id))
        case Returned(s1, _) => Returned(s1.(dropdownIndex := i), NotDone)
        case Threw(s1, e) => Threw(s1, e)
  }

  /**
    `_goToSubjectByID`: resolve the id to its first index (throwing before
    anything happens when no subject has it) and go there; no id finishes.
   */
  function GoToById(s: State, id: Option<SubjectId>): (r: Step<Completion>)
    ensures id.None? ==> r == GoToByIndex(s, None)
    ensures id.Some? && !HasId(s.subjects, id.value) ==> r == Threw(s, InvalidId(id.value))
    ensures id.Some? && HasId(s.subjects, id.value) ==>
      && r.Returned? && r.value == NotDone
      && 0 <= r.state.cursor < |s.subjects|
      && s.subjects[r.state.cursor].id == id.value
      && (forall j :: 0 <= j < r.state.cursor ==> s.subjects[j].id != id.value)
      && r.state.dropdownIndex == r.state.cursor
      && r.state.persisted == s.persisted + PendingSave(s)
      && r.state.subjects == PostUpdate(s).subjects
      && r.state.editor == r.state.subjects[r.state.cursor].caption
      && r.state.imageSrc == ImageHost + s.subjects[r.state.cursor].imagePath
      && r.state.imageHidden == s.imageHidden
      && r.state.completionShown == s.completionShown
    ensures id.Some? && HasId(s.subjects, id.value) ==>
      r == GoToByIndex(s, Some(FindIndex(s.subjects, id.value)))
  {
    match id
    case None => GoToByIndex(s, None)
    case Some(id) =>
      match GetSubjectIndex(s.subjects, id)
      case Err(e) => Threw(s, e)
      case Ok(i) => GoToByIndex(s, Some(i))
  }

  /**
    `_advanceToPrevSubject`: throw when there is no current subject; at the
    first subject save it again and report `Error` without moving; otherwise
    do exactly what going to the previous index does.
   */
  function AdvancePrev(s: State): (r: Step<Completion>)
    ensures !Positioned(s) ==> r == Threw(s, NoCurrentSubject)
    ensures Positioned(s) ==> r.Returned? && r.state.persisted == s.persisted + PendingSave(s)
    ensures s.cursor == 0 < |s.subjects| ==>
      r.value == Error && r.state == PostUpdate(s) && r.state.cursor == s.cursor
    ensures 0 < s.cursor < |s.subjects| ==>
      && r.value == NotDone
      && r.state.dropdownIndex == s.cursor - 1
      && 0 <= r.state.cursor <= s.cursor - 1
      && s.subjects[r.state.cursor].id == s.subjects[s.cursor - 1].id
      && r.state.subjects == PostUpdate(s).subjects
      && r.state.editor == r.state.subjects[r.state.cursor].caption
      && r.state.imageSrc == ImageHost + s.subjects[r.state.cursor].imagePath
      && r.state.imageHidden == s.imageHidden
      && r.state.completionShown == s.completionShown
    ensures 0 < s.cursor < |s.subjects| ==> r == GoToByIndex(s, Some(s.cursor - 1))
  {
    if s.cursor < 0 || s.cursor >= |s.subjects| then Threw(s, NoCurrentSubject)
    else
      var index := s.cursor - 1;
      if index < 0 then Returned(PostUpdate(s), Error)
      else GoToByIndex(s, Some(index))
  }

  /**
    `_advanceToNextSubject`: throw when there is no current subject; at the
    last subject save it again and report `Error` without moving; otherwise
    do exactly what going to the next index does.
   */
  function AdvanceNext(s: State): (r: Step<Completion>)
    ensures !Positioned(s) ==> r == Threw(s, NoCurrentSubject)
    ensures Positioned(s) ==> r.Returned? && r.state.persisted == s.persisted + PendingSave(s)
    ensures 0 <= s.cursor == |s.subjects| - 1 ==>
      r.value == Error && r.state == PostUpdate(s) && r.state.cursor == s.cursor
    ensures 0 <= s.cursor < |s.subjects| - 1 ==>
      && r.value == NotDone
      && r.state.dropdownIndex == s.cursor + 1
      && 0 <= r.state.cursor <= s.cursor + 1
      && s.subjects[r.state.cursor].id == s.subjects[s.cursor + 1].id
      && r.state.subjects == PostUpdate(s).subjects
      && r.state.editor == r.state.subjects[r.state.cursor].caption
      && r.state.imageSrc == ImageHost + s.subjects[r.state.cursor].imagePath
      && r.state.imageHidden == s.imageHidden
      && r.state.completionShown == s.completionShown
    ensures 0 <= s.cursor < |s.subjects| - 1 ==> r == GoToByIndex(s, Some(s.cursor + 1))
  {
    if s.cursor < 0 || s.cursor >= |s.subjects| then Threw(s, NoCurrentSubject)
    else
      var index := s.cursor + 1;
      if index >= |s.subjects| then Returned(PostUpdate(s), Error)
      else GoToByIndex(s, Some(index))
  }

  /** The subjects `init` fetches, one per id and in id order. */
  function Fetched(ids: seq<SubjectId>, fetch: SubjectId -> Subject): (r: seq<Subject>)
    ensures |r| == |ids|
    ensures forall k :: 0 <= k < |ids| ==> r[k] == fetch(ids[k])
  {
    seq(|ids|, k requires 0 <= k < |ids| => fetch(ids[k]))
  }

  /**
    `init`: fetch the id list; when it is empty show the completion notice
    and stop. Otherwise fetch each subject's info in order, append it to the
    list (the dropdown, if it had no selection, selects its first option),
    and show the first subject. `fetch` stands for the "getSubjectInfo"
    request.
   */
  function Init(s: State, ids: seq<SubjectId>, fetch: SubjectId -> Subject): (r: Step<()>)
    ensures r.Returned?
    ensures |ids| == 0 ==> r.state == s.(completionShown := true)
    ensures |ids| > 0 ==>
      && |r.state.subjects| > 0
      && r.state.imageSrc == ImageHost + r.state.subjects[0].imagePath
      && r.state.imageHidden == s.imageHidden
      && r.state.completionShown == s.completionShown
    ensures |ids| > 0 ==>
      && |r.state.subjects| == |s.subjects| + |ids|
      && r.state.cursor == 0
      && r.state.editor == r.state.subjects[0].caption
    ensures |ids| > 0 && Wf(s) ==>
      && r.state.subjects[..|s.subjects|] == PostUpdate(s).subjects
      && (forall k :: 0 <= k < |ids| ==> r.state.subjects[|s.subjects| + k] == fetch(ids[k]))
      && r.state.persisted == s.persisted + PendingSave(s)
  {
    if |ids| == 0 then Returned(DisplayCompletion(s), ())
    else
      var s1 := s.(subjects := s.subjects + Fetched(ids, fetch),
                   dropdownIndex := if s.dropdownIndex < 0 then 0 else s.dropdownIndex);
      UseSubjectInfo(s1, Some(s1.subjects[0].id))
  }
}

=== FILE: properties.dfy ===
/**
  Properties of single navigator transitions that relate the transition to
  the subject list's id invariant or to a second call.
 */
module Properties {
  import opened Subjects
  import opened Navigator

  /**
    With unique ids, going to a valid index lands exactly there: the cursor
    and the dropdown selection become `i`, the editor shows subject `i`'s
    caption (the one just saved when `i` is the current subject), and the
    previously current subject, if any, was sent once.
   */
  lemma GoToIndexUnique(s: State, i: int)
    requires UniqueIds(s.subjects)
    requires 0 <= i < |s.subjects|
    ensures GoToByIndex(s, Some(i)).Returned?
    ensures GoToByIndex(s, Some(i)).value == NotDone
    ensures GoToByIndex(s, Some(i)).state.cursor == i
    ensures GoToByIndex(s, Some(i)).state.dropdownIndex == i
    ensures GoToByIndex(s, Some(i)).state.editor == (if i == s.cursor then s.editor else s.subjects[i].caption)
    ensures GoToByIndex(s, Some(i)).state.persisted == s.persisted + PendingSave(s)
  {
  }

  /** With unique ids, going to a known id lands on the subject with that id. */
  lemma GoToIdUnique(s: State, i: int)
    requires UniqueIds(s.subjects)
    requires 0 <= i < |s.subjects|
    ensures GoToById(s, Some(s.subjects[i].id)) == GoToByIndex(s, Some(i))
    ensures GoToById(s, Some(s.subjects[i].id)).state.cursor == i
  {
    UniqueFindIndex(s.subjects, i);
    GoToIndexUnique(s, i);
  }

  /**
    Finishing works from any state and is idempotent: a second
    `GoToByIndex(None)` saves nothing and changes nothing.
   */
  lemma CompletionIdempotent(s: State)
    ensures GoToByIndex(s, None).state.cursor == -1
    ensures GoToByIndex(s, None).state.completionShown
    ensures GoToByIndex(GoToByIndex(s, None).state, None) == Returned(GoToByIndex(s, None).state, Done)
  {
    var t := GoToByIndex(s, None).state;
    assert PostUpdate(t) == t;
  }

  /**
    With unique ids, `AdvancePrev` away from the first subject saves the
    current subject and moves the cursor back by exactly one.
   */
  lemma AdvancePrevMoves(s: State)
    requires UniqueIds(s.subjects)
    requires 0 < s.cursor < |s.subjects|
    ensures AdvancePrev(s).Returned? && AdvancePrev(s).value == NotDone
    ensures AdvancePrev(s).state.cursor == s.cursor - 1
    ensures AdvancePrev(s).state.persisted == s.persisted + [s.subjects[s.cursor].(caption := s.editor)]
  {
    GoToIndexUnique(s, s.cursor - 1);
  }

  /**
    With unique ids, `AdvanceNext` away from the last subject saves the
    current subject and moves the cursor forward by exactly one.
   */
  lemma AdvanceNextMoves(s: State)
    requires UniqueIds(s.subjects)
    requires 0 <= s.cursor < |s.subjects| - 1
    ensures AdvanceNext(s).Returned? && AdvanceNext(s).value == NotDone
    ensures AdvanceNext(s).state.cursor == s.cursor + 1
    ensures AdvanceNext(s).state.persisted == s.persisted + [s.subjects[s.cursor].(caption := s.editor)]
  {
    GoToIndexUnique(s, s.cursor + 1);
  }

  /**
    At either end of the list the advance operations stay put: the cursor is
    unchanged, the current subject is saved exactly once, and `Error` is
    reported.
   */
  lemma AdvanceAtEdgeStays(s: State)
    requires Positioned(s)
    ensures s.cursor == 0 ==>
      && AdvancePrev(s).Returned? && AdvancePrev(s).value == Error
      && AdvancePrev(s).state.cursor == s.cursor
      && AdvancePrev(s).state.persisted == s.persisted + [s.subjects[s.cursor].(caption := s.editor)]
    ensures s.cursor == |s.subjects| - 1 ==>
      && AdvanceNext(s).Returned? && AdvanceNext(s).value == Error
      && AdvanceNext(s).state.cursor == s.cursor
      && AdvanceNext(s).state.persisted == s.persisted + [s.subjects[s.cursor].(caption := s.editor)]
  {
  }

  /**
    `init` on a freshly constructed page: an empty id list only shows the
    completion notice; otherwise the list holds the fetched subjects in id
    order, the first one is current and shown, the dropdown selects it, and
    nothing has been sent to the server.
   */
  lemma InitFresh(editor: string, ids: seq<SubjectId>, fetch: SubjectId -> Subject)
    ensures |ids| == 0 ==>
      && Init(Initial(editor), ids, fetch).state.subjects == []
      && Init(Initial(editor), ids, fetch).state.cursor == -1
      && Init(Initial(editor), ids, fetch).state.completionShown
    ensures |ids| > 0 ==>
      && Init(Initial(editor), ids, fetch).state.subjects == Fetched(ids, fetch)
      && Init(Initial(editor), ids, fetch).state.cursor == 0
      && Init(Initial(editor), ids, fetch).state.editor == fetch(ids[0]).caption
      && Init(Initial(editor), ids, fetch).state.dropdownIndex == 0
      && Init(Initial(editor), ids, fetch).state.persisted == []
      && !Init(Initial(editor), ids, fetch).state.completionShown
    ensures Wf(Init(Initial(editor), ids, fetch).state)
  {
  }

  /**
    Without unique ids, next does not move forward past a repeated id: when
    the next subject carries the current subject's id, the page reports
    `NotDone` and selects the next dropdown entry, but the cursor lands on
    the first subject with that id, which is at or before the current one.
   */
  lemma NextStallsOnRepeatedId(s: State)
    requires 0 <= s.cursor < |s.subjects| - 1
    requires s.subjects[s.cursor + 1].id == s.subjects[s.cursor].id
    ensures AdvanceNext(s).Returned? && AdvanceNext(s).value == NotDone
    ensures AdvanceNext(s).state.dropdownIndex == s.cursor + 1
    ensures AdvanceNext(s).state.cursor <= s.cursor
  {
  }
}

=== FILE: queue.dfy ===
/**
  The ordering the page's promise queue provides, stated over pure steps.

  Each task added to the queue starts only once the task before it has
  settled, whether it succeeded or failed, and each caller receives its own
  task's outcome. With tasks as pure steps from a state to a new state and
  an outcome, running a queue of tasks is a left-to-right fold that never
  stops early: a failed task's outcome goes to its own caller and the next
  task runs on the state the failed one left.
 */
module Queue {

  /** Run `tasks` in order from `s`: the final state and every task's own outcome. */
  function RunAll<S, T, R>(step: (S, T) -> (S, R), s: S, tasks: seq<T>): (r: (S, seq<R>))
    ensures |r.1| == |tasks|
    decreases |tasks|
  {
    if |tasks| == 0 then (s, [])
    else
      var (s1, out) := step(s, tasks[0]);
      var rest := RunAll(step, s1, tasks[1..]);
      (rest.0, [out] + rest.1)
  }

  /**
    The queue's ordering contract: the k-th caller receives exactly the
    outcome of its own task, run on the state the first k tasks left.
   */
  lemma {:induction false} OwnOutcome<S, T, R>(step: (S, T) -> (S, R), s: S, tasks: seq<T>, k: int)
    requires 0 <= k < |tasks|
    ensures RunAll(step, s, tasks).1[k] == step(RunAll(step, s, tasks[..k]).0, tasks[k]).1
    decreases k
  {
    if k > 0 {
      var s1 := step(s, tasks[0]).0;
      OwnOutcome(step, s1, tasks[1..], k - 1);
      assert tasks[1..][..k - 1] == tasks[..k][1..];
      assert tasks[1..][k - 1] == tasks[k];
    }
  }

  /**
    Queues compose: running `a` and then `b` is running `a + b`, and the
    outcomes line up.
   */
  lemma {:induction false} RunAppend<S, T, R>(step: (S, T) -> (S, R), s: S, a: seq<T>, b: seq<T>)
    ensures RunAll(step, s, a + b).0 == RunAll(step, RunAll(step, s, a).0, b).0
    ensures RunAll(step, s, a + b).1 == RunAll(step, s, a).1 + RunAll(step, RunAll(step, s, a).0, b).1
    decreases |a|
  {
    if |a| == 0 {
      assert a + b == b;
    } else {
      var s1 := step(s, a[0]).0;
      RunAppend(step, s1, a[1..], b);
      assert (a + b)[0] == a[0];
      assert (a + b)[1..] == a[1..] + b;
    }
  }
}

=== FILE: scenarios.dfy ===
/**
  Concrete sessions: the edge, traversal and empty-list behaviour of the
  navigator on small lists.
 */
module Scenarios {
  import opened Subjects
  import opened Navigator
  import opened Session
  import opened Properties

  /** A stand-in for the "getSubjectInfo" request: every subject starts uncaptioned. */
  function FetchBlank(id: SubjectId): Subject {
    Subject(id, "image", "")
  }

  /**
    The page right after `init` fetched the given ids on a freshly built page
    with an empty editor, written out field by field (`LoadedIsInit`).
   */
  function Loaded(ids: seq<SubjectId>): State {
    if |ids| == 0 then Initial("").(completionShown := true)
    else State(Fetched(ids, FetchBlank), 0, "", ImageHost + "image", false, false, 0, [])
  }

  /** `Loaded` is exactly the state `init` leaves. */
  lemma LoadedIsInit(ids: seq<SubjectId>)
    ensures Init(Initial(""), ids, FetchBlank).state == Loaded(ids)
  {
    InitFresh("", ids, FetchBlank);
  }

  /** The same entry point invoked `n` times in a row. */
  function Repeat<T>(x: T, n: nat): (r: seq<T>)
    ensures |r| == n
  {
    if n == 0 then [] else [x] + Repeat(x, n - 1)
  }

  /**
    One press of next away from the last subject, with distinct ids: the
    page moves one forward, shows the next subject's caption unchanged and
    has sent the current one.
   */
  lemma NextStep(s: State) returns (s1: State)
    requires UniqueIds(s.subjects)
    requires 0 <= s.cursor < |s.subjects| - 1
    ensures s1 == Apply(s, Next).state && Settle(Apply(s, Next)) == Value(NotDone)
    ensures s1.cursor == s.cursor + 1
    ensures UniqueIds(s1.subjects)
    ensures |s1.subjects| == |s.subjects|
    ensures s1.subjects[s1.cursor].(caption := s1.editor) == s.subjects[s.cursor + 1]
    ensures s1.subjects[s1.cursor + 1..] == s.subjects[s.cursor + 2..]
    ensures s1.persisted == s.persisted + [s.subjects[s.cursor].(caption := s.editor)]
  {
    s1 := Apply(s, Next).state;
    AdvanceNextMoves(s);
    GoToIndexUnique(s, s.cursor + 1);
    SameShapeUnique(s.subjects, s1.subjects);
  }

  /**
    The first of `n + 1` presses of next, away from the last subject: it
    settles as `NotDone` and the other `n` presses run on the state it left.
   */
  lemma NextThen(s: State, n: nat) returns (s1: State)
    requires UniqueIds(s.subjects)
    requires 0 <= s.cursor < |s.subjects| - 1
    ensures s1 == Apply(s, Next).state
    ensures Run(s, Repeat(Next, n + 1)).1 == [Value(NotDone)] + Run(s1, Repeat(Next, n)).1
    ensures Run(s, Repeat(Next, n + 1)).0 == Run(s1, Repeat(Next, n)).0
  {
    s1 := NextStep(s);
    assert Repeat(Next, n + 1) == [Next] + Repeat(Next, n);
    RunCons(s, Next, Repeat(Next, n));
  }

  /** One press of next on the last subject: `Error`, no move, the current subject sent again. */
  lemma NextAtLast(s: State)
    requires 0 <= s.cursor == |s.subjects| - 1
    ensures Run(s, [Next]).1 == [Value(Error)]
    ensures Run(s, [Next]).0.cursor == s.cursor
    ensures Run(s, [Next]).0.persisted == s.persisted + [s.subjects[s.cursor].(caption := s.editor)]
  {
    RunCons(s, Next, []);
    assert [Next] + [] == [Next];
    AdvanceAtEdgeStays(s);
  }

  /**
    Pressing next `n + 1` times from `n` places before the last subject,
    with distinct ids: `n` presses move forward and report `NotDone`, the
    last one reports `Error` on the last subject.
   */
  lemma {:induction false} NextToEnd(s: State, n: nat)
    requires UniqueIds(s.subjects)
    requires 0 <= s.cursor && s.cursor + n == |s.subjects| - 1
    ensures Run(s, Repeat(Next, n + 1)).1 == Repeat(Value(NotDone), n) + [Value(Error)]
    ensures Run(s, Repeat(Next, n + 1)).0.cursor == |s.subjects| - 1
    decreases n
  {
    if n == 0 {
      assert Repeat(Next, 1) == [Next];
      NextAtLast(s);
    } else {
      var m := n - 1;
      var s1 := NextStep(s);
      var _ := NextThen(s, n);
      NextToEnd(s1, m);
      var rest := Run(s1, Repeat(Next, n)).1;
      assert rest == Repeat(Value(NotDone), m) + [Value(Error)];
      RepeatSnoc(Value(NotDone), Value(Error), m);
    }
  }

  /** `n + 1` copies of `x` then `y`, split after the first `x`. */
  lemma RepeatSnoc<T>(x: T, y: T, n: nat)
    ensures [x] + (Repeat(x, n) + [y]) == Repeat(x, n + 1) + [y]
  {
    assert Repeat(x, n + 1) == [x] + Repeat(x, n);
  }

  /** Moving one element from the front of a suffix to the end of the prefix before it. */
  lemma Slide(p: seq<Subject>, xs: seq<Subject>, i: nat)
    requires i < |xs|
    ensures p + [xs[i]] + xs[i + 1..] == p + xs[i..]
  {
    assert [xs[i]] + xs[i + 1..] == xs[i..];
  }

  /**
    What the server receives while pressing next `n + 1` times from `n`
    places before the last subject, with distinct ids: the starting subject
    with the editor text, then every later subject as it was loaded.
   */
  lemma {:induction false} NextToEndSends(s: State, n: nat)
    requires UniqueIds(s.subjects)
    requires 0 <= s.cursor && s.cursor + n == |s.subjects| - 1
    ensures Run(s, Repeat(Next, n + 1)).0.persisted
      == s.persisted + [s.subjects[s.cursor].(caption := s.editor)] + s.subjects[s.cursor + 1..]
    decreases n
  {
    if n == 0 {
      assert Repeat(Next, 1) == [Next];
      NextAtLast(s);
      assert s.subjects[s.cursor + 1..] == [];
    } else {
      var m := n - 1;
      var s1 := NextStep(s);
      var _ := NextThen(s, n);
      NextToEndSends(s1, m);
      Slide(s.persisted + [s.subjects[s.cursor].(caption := s.editor)], s.subjects, s.cursor + 1);
    }
  }

  /** Loading distinct ids positions the page on the first of them, with nothing sent yet. */
  lemma LoadedDistinct(ids: seq<SubjectId>)
    requires |ids| > 0
    requires forall i, j :: 0 <= i < j < |ids| ==> ids[i] != ids[j]
    ensures |Loaded(ids).subjects| == |ids|
    ensures forall k :: 0 <= k < |ids| ==> Loaded(ids).subjects[k] == FetchBlank(ids[k])
    ensures UniqueIds(Loaded(ids).subjects)
    ensures Loaded(ids).cursor == 0
    ensures Loaded(ids).editor == ""
    ensures Loaded(ids).persisted == []
  {
  }

  /**
    On [a, b]: the previous button at the first subject reports `Error`,
    keeps the cursor and saves a once.
   */
  lemma PrevAtFirst(a: SubjectId, b: SubjectId)
    requires a != b
    ensures Run(Loaded([a, b]), [Prev]).1 == [Value(Error)]
    ensures Run(Loaded([a, b]), [Prev]).0.cursor == 0
    ensures Run(Loaded([a, b]), [Prev]).0.persisted == [FetchBlank(a)]
  {
    var s := Loaded([a, b]);
    LoadedTwo(a, b);
    AdvanceAtEdgeStays(s);
    assert s.subjects[0].(caption := s.editor) == FetchBlank(a);
  }

  /**
    On [a, b]: next moves to b and reports `NotDone`; next again at the last
    subject reports `Error` and stays on b.
   */
  lemma NextToLast(a: SubjectId, b: SubjectId)
    requires a != b
    ensures Run(Loaded([a, b]), [Next, Next]).1 == [Value(NotDone), Value(Error)]
    ensures Run(Loaded([a, b]), [Next, Next]).0.cursor == 1
  {
    LoadedTwo(a, b);
    assert Repeat(Next, 2) == [Next, Next];
    assert Repeat(Value(NotDone), 1) == [Value(NotDone)];
    NextToEnd(Loaded([a, b]), 1);
  }

  /**
    When the editor still holds the current caption, saving sends the
    subject exactly as it is.
   */
  lemma UnsavedEdit(s: State)
    requires Positioned(s) && s.editor == s.subjects[s.cursor].caption
    ensures s.persisted + [s.subjects[s.cursor].(caption := s.editor)] + s.subjects[s.cursor + 1..]
      == s.persisted + s.subjects[s.cursor..]
  {
    assert s.subjects[s.cursor].(caption := s.editor) == s.subjects[s.cursor];
    Slide(s.persisted, s.subjects, s.cursor);
  }

  /** The blank subjects for a list of ids, read off position by position. */
  lemma BlankList(xs: seq<Subject>, ids: seq<SubjectId>)
    requires |xs| == |ids|
    requires forall k :: 0 <= k < |ids| ==> xs[k] == FetchBlank(ids[k])
    ensures xs == seq(|ids|, k requires 0 <= k < |ids| => FetchBlank(ids[k]))
  {
  }

  /** Loading two distinct ids. */
  lemma LoadedTwo(a: SubjectId, b: SubjectId)
    requires a != b
    ensures Loaded([a, b]).subjects == [FetchBlank(a), FetchBlank(b)]
    ensures UniqueIds(Loaded([a, b]).subjects)
    ensures Loaded([a, b]).cursor == 0 && Loaded([a, b]).editor == "" && Loaded([a, b]).persisted == []
  {
    var ids := [a, b];
    LoadedDistinct(ids);
    BlankList(Loaded(ids).subjects, ids);
  }

  /** Loading three distinct ids. */
  lemma LoadedThree(a: SubjectId, b: SubjectId, c: SubjectId)
    requires a != b && b != c && a != c
    ensures Loaded([a, b, c]).subjects == [FetchBlank(a), FetchBlank(b), FetchBlank(c)]
    ensures UniqueIds(Loaded([a, b, c]).subjects)
    ensures Loaded([a, b, c]).cursor == 0 && Loaded([a, b, c]).editor == "" && Loaded([a, b, c]).persisted == []
  {
    var ids := [a, b, c];
    LoadedDistinct(ids);
    BlankList(Loaded(ids).subjects, ids);
  }

  /**
    On [a, b, c]: two presses of next each report `NotDone`, a third reports
    `Error`, and the page ends on c.
   */
  lemma TraverseThree(a: SubjectId, b: SubjectId, c: SubjectId)
    requires a != b && b != c && a != c
    ensures Run(Loaded([a, b, c]), [Next, Next, Next]).1 == [Value(NotDone), Value(NotDone), Value(Error)]
    ensures Run(Loaded([a, b, c]), [Next, Next, Next]).0.cursor == 2
  {
    LoadedThree(a, b, c);
    assert Repeat(Next, 3) == [Next, Next, Next];
    assert Repeat(Value(NotDone), 2) == [Value(NotDone), Value(NotDone)];
    NextToEnd(Loaded([a, b, c]), 2);
  }

  /** On [a, b, c]: the same three presses send a, b and c to the server, in that order. */
  lemma TraverseThreeSends(a: SubjectId, b: SubjectId, c: SubjectId)
    requires a != b && b != c && a != c
    ensures Run(Loaded([a, b, c]), [Next, Next, Next]).0.persisted == [FetchBlank(a), FetchBlank(b), FetchBlank(c)]
  {
    var s := Loaded([a, b, c]);
    LoadedThree(a, b, c);
    assert Repeat(Next, 3) == [Next, Next, Next];
    NextToEndSends(s, 2);
    UnsavedEdit(s);
  }

  /** An empty id list goes straight to the completion notice with nothing current. */
  lemma EmptyInit()
    ensures Loaded([]).completionShown
    ensures Loaded([]).cursor == -1
    ensures Loaded([]).subjects == []
    ensures Run(Loaded([]), [Next]).1 == [Failed(NoCurrentSubject)]
  {
    RunCons(Loaded([]), Next, []);
  }

  /**
    On the empty page the queue keeps going after failures: next and an
    out-of-range index each fail their own caller, and finishing still runs
    and reports `Done`.
   */
  lemma EmptyPageQueue()
    ensures Run(Loaded([]), [Next, ByIndex(Some(0)), ByIndex(None)]).1
      == [Failed(NoCurrentSubject), Failed(InvalidIndex(0)), Value(Done)]
  {
    var s := Loaded([]);
    FailureIsolated(s, Next, [ByIndex(Some(0)), ByIndex(None)]);
    FailureIsolated(s, ByIndex(Some(0)), [ByIndex(None)]);
    RunCons(s, ByIndex(None), []);
    assert [Next] + [ByIndex(Some(0)), ByIndex(None)] == [Next, ByIndex(Some(0)), ByIndex(None)];
    assert [ByIndex(Some(0))] + [ByIndex(None)] == [ByIndex(Some(0)), ByIndex(None)];
    assert [ByIndex(None)] + [] == [ByIndex(None)];
  }
}

=== FILE: session.dfy ===
/**
  A session of the page: navigator transitions run one after another.

  The page funnels the previous and next button handlers through a promise
  queue whose guarantee is that each task starts only after the previous one
  settled, and that a task that throws fails only its own caller: the next
  task still runs, on whatever state the failed task left behind. `Run` is
  that guarantee applied to the navigator's transitions. The dropdown's
  handler goes to an id without passing through the queue; a session treats
  such a selection as one more step, taken whole between two queued tasks.
 */
module Session {
  import opened Subjects
  import opened Navigator
  import Queue

  /**
    One navigator entry point: a button press (queued), a dropdown selection
    (`ById`, taken whole between queued tasks), or a direct go-to by index.
   */
  datatype Op = Prev | Next | ByIndex(index: Option<int>) | ById(id: Option<SubjectId>)

  /** What the caller of one task observes once it settles. */
  datatype Settled = Value(completion: Completion) | Failed(error: NavError)

  /** The caller's view of a step. */
  function Settle(r: Step<Completion>): (o: Settled)
    ensures o.Value? <==> r.Returned?
    ensures r.Returned? ==> o.completion == r.value
    ensures r.Threw? ==> o.error == r.error
  {
    match r
    case Returned(_, c) => Value(c)
    case Threw(_, e) => Failed(e)
  }

  /**
    Dispatch one entry point. Whatever it is, it keeps the subject list's
    shape and the cursor invariant, a throw leaves the state exactly as it
    was, and a return has sent the previously current subject, with the
    editor text as caption, exactly once. Nothing ever un-hides the image or
    removes the completion notice.
   */
  function Apply(s: State, op: Op): (r: Step<Completion>)
    ensures SameShape(s.subjects, r.state.subjects)
    ensures Wf(s) ==> Wf(r.state)
    ensures r.Threw? ==> r.state == s
    ensures s.imageHidden ==> r.state.imageHidden
    ensures s.completionShown ==> r.state.completionShown
    ensures r.Returned? ==> r.state.persisted == s.persisted + PendingSave(s)
    ensures r.Returned? && r.state.cursor != s.cursor && Positioned(s) ==>
      r.state.persisted[|s.persisted|] == s.subjects[s.cursor].(caption := s.editor)
  {
    match op
    case Prev => AdvancePrev(s)
    case Next => AdvanceNext(s)
    case ByIndex(i) => GoToByIndex(s, i)
    case ById(id) => GoToById(s, id)
  }

  /** One queued task: the state it leaves and what its caller observes. */
  function Perform(s: State, op: Op): (State, Settled) {
    var r := Apply(s, op);
    (r.state, Settle(r))
  }

  /** Run the tasks in order through the page's queue. */
  function Run(s: State, ops: seq<Op>): (r: (State, seq<Settled>))
    ensures |r.1| == |ops|
  {
    Queue.RunAll(Perform, s, ops)
  }

  /** Running a first task and then the rest. */
  lemma RunCons(s: State, op: Op, rest: seq<Op>)
    ensures Run(s, [op] + rest).0 == Run(Apply(s, op).state, rest).0
    ensures Run(s, [op] + rest).1 == [Settle(Apply(s, op))] + Run(Apply(s, op).state, rest).1
  {
    assert ([op] + rest)[1..] == rest;
  }

  /**
    A task that throws fails only its own caller: the remaining tasks run
    exactly as if it had never been queued.
   */
  lemma FailureIsolated(s: State, op: Op, rest: seq<Op>)
    requires Apply(s, op).Threw?
    ensures Run(s, [op] + rest).1 == [Failed(Apply(s, op).error)] + Run(s, rest).1
    ensures Run(s, [op] + rest).0 == Run(s, rest).0
  {
    RunCons(s, op, rest);
  }

  /**
    Whatever the tasks and however they end, every one of them runs and
    settles; the subject list only ever changes in its captions, so unique
    ids stay unique; the persist log only grows; the cursor stays in
    [-1, N-1]; and once hidden or shown, the image and the completion notice
    stay that way.
   */
  lemma {:induction false} RunKeeps(s: State, ops: seq<Op>)
    ensures SameShape(s.subjects, Run(s, ops).0.subjects)
    ensures UniqueIds(s.subjects) ==> UniqueIds(Run(s, ops).0.subjects)
    ensures Wf(s) ==> Wf(Run(s, ops).0)
    ensures s.persisted <= Run(s, ops).0.persisted
    ensures s.imageHidden ==> Run(s, ops).0.imageHidden
    ensures s.completionShown ==> Run(s, ops).0.completionShown
    decreases |ops|
  {
    if |ops| > 0 {
      var t := Apply(s, ops[0]).state;
      RunCons(s, ops[0], ops[1..]);
      assert [ops[0]] + ops[1..] == ops;
      RunKeeps(t, ops[1..]);
      SameShapeTrans(s.subjects, t.subjects, Run(s, ops).0.subjects);
      SameShapeUnique(s.subjects, Run(s, ops).0.subjects);
    }
  }

  /**
    The queue's ordering contract: the k-th caller observes exactly the
    outcome of its own task, run on the state the first k tasks left.
   */
  lemma RunOutcomeIsOwn(s: State, ops: seq<Op>, k: int)
    requires 0 <= k < |ops|
    ensures Run(s, ops).1[k] == Settle(Apply(Run(s, ops[..k]).0, ops[k]))
  {
    Queue.OwnOutcome(Perform, s, ops, k);
  }

  /** Running `a` and then `b` is running `a + b`. */
  lemma RunSplit(s: State, a: seq<Op>, b: seq<Op>)
    ensures Run(s, a + b).0 == Run(Run(s, a).0, b).0
    ensures Run(s, a + b).1 == Run(s, a).1 + Run(Run(s, a).0, b).1
  {
    Queue.RunAppend(Perform, s, a, b);
  }
}

=== FILE: subjects.dfy ===
/**
  The subject records the navigator keeps in memory, the id lookup it uses
  (`Array.prototype.findIndex` on the id field) and the shape invariants of
  the subject list: a fixed length, fixed ids and image paths, unique ids.
 */
module Subjects {

  /** Subject ids are opaque strings compared with `===`. */
  type SubjectId = string

  /** One subject as fetched from the server: id, image path and caption. */
  datatype Subject = Subject(id: SubjectId, imagePath: string, caption: string)

  /** True iff some subject in the list carries `id`. */
  predicate HasId(subjects: seq<Subject>, id: SubjectId) {
    exists j :: 0 <= j < |subjects| && subjects[j].id == id
  }

  /**
    `subjects.findIndex(x => x.id === id)`: the first index whose subject has
    `id`, or -1 when there is none.
   */
  function FindIndex(subjects: seq<Subject>, id: SubjectId): (r: int)
    ensures -1 <= r < |subjects|
    ensures r >= 0 ==> subjects[r].id == id
    ensures r >= 0 ==> forall j :: 0 <= j < r ==> subjects[j].id != id
    ensures r == -1 <==> !HasId(subjects, id)
  {
    if |subjects| == 0 then -1
    else if subjects[0].id == id then 0
    else
      var k := FindIndex(subjects[1..], id);
      assert forall j :: 0 < j < |subjects| ==> subjects[j] == subjects[1..][j - 1];
      if k < 0 then -1 else k + 1
  }

  /** No two subjects share an id. */
  predicate UniqueIds(subjects: seq<Subject>) {
    forall i, j :: 0 <= i < j < |subjects| ==> subjects[i].id != subjects[j].id
  }

  /**
    `b` is `a` with at most the captions changed: same length, and the same id
    and image path at every position.
   */
  predicate SameShape(a: seq<Subject>, b: seq<Subject>) {
    && |a| == |b|
    && (forall j :: 0 <= j < |a| ==> a[j].id == b[j].id)
    && (forall j :: 0 <= j < |a| ==> a[j].imagePath == b[j].imagePath)
  }

  /** With unique ids the lookup of a subject's own id finds that subject. */
  lemma UniqueFindIndex(subjects: seq<Subject>, i: int)
    requires UniqueIds(subjects)
    requires 0 <= i < |subjects|
    ensures FindIndex(subjects, subjects[i].id) == i
  {
  }

  /** Changing captions does not change what the id lookup finds. */
  lemma {:induction false} SameShapeFindIndex(a: seq<Subject>, b: seq<Subject>, id: SubjectId)
    requires SameShape(a, b)
    ensures FindIndex(a, id) == FindIndex(b, id)
  {
    if |a| > 0 && a[0].id != id {
      assert SameShape(a[1..], b[1..]);
      SameShapeFindIndex(a[1..], b[1..], id);
    }
  }

  /** Uniqueness of ids survives any caption-only change. */
  lemma SameShapeUnique(a: seq<Subject>, b: seq<Subject>)
    requires SameShape(a, b)
    ensures UniqueIds(a) <==> UniqueIds(b)
  {
  }

  /** Caption-only changes compose. */
  lemma SameShapeTrans(a: seq<Subject>, b: seq<Subject>, c: seq<Subject>)
    requires SameShape(a, b) && SameShape(b, c)
    ensures SameShape(a, c)
  {
  }
}
